=== FILE: README.md ===
# qrxfer chunk framing, modelled in Dafny

qrxfer moves a file through a video of QR codes. The Python encoder
compresses the file, cuts the compressed bytes into chunks and renders one
QR code per chunk into the frames of a video. A browser app scans the video
with a camera and rebuilds the compressed bytes.

Every chunk is laid out as:

- the chunk count, four bytes little-endian;
- the chunk index, four bytes little-endian;
- a slice of the payload;
- the CRC-32 of that slice, four bytes little-endian.

This project models both ends of that framing, the frame loop between them,
and what happens when the two ends meet.

- `wrappers.dfy` (`Wrappers`): `Option`, `Result` and `Outcome`.
- `wire.dfy` (`Wire`): the byte and field layer.
  - Bytes are integers `0 .. 255`.
  - `struct.pack('<I', x)` with its range error.
  - The scanner's `readUint32`. It uses JavaScript bitwise operators, so it yields a signed 32-bit number.
  - Concatenation of byte strings.
- `crc32.dfy` (`Crc`): the reflected CRC-32 (polynomial 0xEDB88320, preset and final complement; the zlib CRC-32 of section 8 of RFC 1952).
  - The register is 32 booleans, least significant bit first.
  - `Checksum` is the bit-at-a-time definition that stands for `zlib.crc32`.
  - `TableCrc32` is the scanner's table-driven routine. The two are proved equal.
- `chunker.py` → `chunker.dfy` (`Chunker`): `DataChunker`.
  - The chunk size.
  - `calculate_chunks`, using Python floor division.
  - `create_chunk`: its Python slice, its header packing, its CRC trailer and its capacity check.
  - The three exceptions: `calculate_chunks` raises `ZeroDivisionError` for a zero chunk size; `create_chunk` raises `struct.error` for a count or index outside 32 bits, and `ValueError` for a chunk over the QR capacity.
- `scanner.js` → `scanner.dfy` (`Scanner`): `QRScanner`.
  - The parse and CRC check of `processQRCode`.
  - The chunk store, where the first copy of an index wins.
  - The trigger for reconstruction.
  - The reassembly loops of `reconstructFile`.
  - A session of scans processed in order.
- `generator.py` → `generator.dfy` (`Generator`): the loop of `QRVideoGenerator.generate`.
  - Count the chunks, then create and render every chunk.
  - Only then open the video sink, write the frames in index order and close it.
  - Rendering a QR code is a function parameter. Whether the sink opens is a boolean parameter. The sink is observed through the events it receives.
- `transfer.dfy` (`Transfer`): the end-to-end theorem.
  - The camera delivers generated chunks in any order, with repeats, mixed with bytes the scanner drops.
  - The scanner then outputs the payload exactly once, at the scan that completes the index set, and never outputs anything else.

## Model

| member | source | states |
|---|---|---|
| Chunker.Default | qrxfer/chunker.py:9-13 | the default chunker leaves 1248 payload bytes per QR code, and its header and checksum allowance is the 12 bytes the frame adds |
| Chunker.CalculateChunks | qrxfer/chunker.py:15-16 | fails exactly when the chunk size is 0; for a positive chunk size it gives the least `k >= 0` with `(k-1)*cs < n <= k*cs`, and 0 for an empty payload |
| Chunker.FloorDiv | qrxfer/chunker.py:16 | Python's `//`: the quotient rounded toward negative infinity, for either sign of divisor |
| Chunker.PySlice | qrxfer/chunker.py:25 | Python slicing: for in-range bounds it is the ordinary slice, and it is never longer than the sequence |
| Chunker.PyBound | qrxfer/chunker.py:25 | a Python slice bound: one within `0 .. len` is itself, one above `len` is `len`, a negative one counts from the end, and one before the start is 0 |
| Chunker.ChunkData | qrxfer/chunker.py:23-25 | the slice `data[start:end]` is never longer than the data, and for a start within the data it is the ordinary slice from `i*cs` to `min(i*cs+cs, n)` |
| Chunker.SliceBounds | qrxfer/chunker.py:23-25 | the payload of chunk `i` is `data[min(i*cs, n) .. min(i*cs+cs, n)]` and at most `cs` long |
| Chunker.SliceLengths | qrxfer/chunker.py:23-25 | every chunk below the last carries exactly `cs` bytes; the last carries between 1 and `cs` |
| Chunker.ConcatSlices | qrxfer/chunker.py:15-25 | the payloads of chunks `0 .. calculate_chunks(n)-1`, concatenated in index order, are the data |
| Chunker.SlicesPrefix | qrxfer/chunker.py:23-25 | the first `m` payloads concatenated are the first `min(m*cs, n)` bytes of the data |
| Chunker.CreateChunk | qrxfer/chunker.py:22-37 | raises `struct.error` exactly when count or index is outside `0 .. 2^32-1`; otherwise it succeeds exactly when `12 + len(slice)` fits the capacity, and the bytes are count, index, slice and CRC-32 of the slice (the header is not covered) |
| Transfer.ParseFrame | pwa/scanner.js:241-252 | any bytes laid out as count, index, slice and the packed CRC-32 of the slice parse back to the signed count and index, the slice and the signed CRC, and pass the CRC check |
| Chunker.Layout | qrxfer/chunker.py:27-29 | in `header + chunk_data + crc` the four parts sit at 0..4, 4..8, 8..len-4 and len-4..len |
| Chunker.NeverTooLarge | qrxfer/chunker.py:33-35 | a chunker whose header and checksum allowance is at least 12 never raises the capacity error for in-range numbers |
| Wire.PackU32 | qrxfer/chunker.py:27-28 | `struct.pack('<I', x)` gives four bytes that are the base-256 digits of `x`, least significant first |
| Wire.Int32Of | pwa/scanner.js:287-292 | `readUint32` gives a signed 32-bit number, equal to the unsigned value of the four bytes or to that value minus 2^32 |
| Wire.U32OfPackU32 | qrxfer/chunker.py:27-28 | unpacking a packed 32-bit field gives the value back, wherever the field sits |
| Wire.PackU32OfU32Of | qrxfer/chunker.py:27-28 | packing the value of four bytes gives the same four bytes |
| Wire.Int32OfPackU32 | pwa/scanner.js:287-292 | `readUint32` of a packed field is the value below 2^31 and the value minus 2^32 from 2^31 up |
| Wire.Int32OfInjective | pwa/scanner.js:287-292 | two fields read as the same JavaScript number hold the same four bytes, and conversely |
| Wire.SignedField | pwa/scanner.js:245-249 | a field reads as the signed form of `x` exactly when it holds the packed bytes of `x` |
| Wire.Int32BytesOf | pwa/scanner.js:287-292 | the signed number `readUint32` returns determines the four bytes it was read from |
| Wire.FlattenPart | pwa/scanner.js:366-373 | part `i` of a concatenation sits at the offset given by the lengths of the parts before it |
| Crc.PolyValue | pwa/scanner.js:303 | the polynomial register of the table construction holds `0xedb88320` |
| Crc.Uint32RoundTrip | pwa/scanner.js:313 | reading a register as an unsigned 32-bit number and building a register from such a number are inverse to each other |
| Crc.StepsLinear | pwa/scanner.js:300-306 | the eight shift steps of the table construction distribute over XOR of registers |
| Crc.StepsClear | pwa/scanner.js:302-304 | while the low bits of the register are clear, the shift steps never add the polynomial and amount to `>>> n` |
| Crc.TableUpdateAgrees | pwa/scanner.js:309-311 | one table lookup `table[(crc ^ b) & 0xff] ^ (crc >>> 8)` equals eight bitwise steps on `crc ^ b` |
| Crc.TableRegisterAgrees | pwa/scanner.js:308-311 | the table loop over the data leaves the same register as the bitwise loop |
| Crc.TableCrc32 | pwa/scanner.js:294-314 | the scanner's table-driven `crc32`, for every input, equals the bitwise CRC-32 the encoder packs |
| Crc.Checksum | qrxfer/chunker.py:28 | `zlib.crc32` as the bitwise reflected CRC-32; the CRC of the empty string is 0 |
| Scanner.ParsePacket | pwa/scanner.js:236-245 | no packet exactly for inputs shorter than 12 bytes; the payload is 12 bytes shorter than the input, and the three numbers are signed 32-bit values |
| Scanner.ParseLossless | pwa/scanner.js:241-245 | laying a parsed packet's fields out again gives back the scanned bytes |
| Scanner.CrcMatches | pwa/scanner.js:248-249 | the scanner's comparison holds exactly when the packet's CRC field is zlib's CRC-32 of the payload taken as a signed 32-bit number |
| Scanner.CrcCheck | pwa/scanner.js:247-252 | the CRC check passes exactly when the last four bytes are the packed CRC-32 of bytes `8 .. len-4` |
| Scanner.ProcessQRCode | pwa/scanner.js:236-272 | too short, a bad CRC or an already stored index leave the state unchanged; otherwise the payload is stored under its index and the total is set by the first stored chunk only; no stored entry ever changes; reconstruction runs exactly when a chunk was stored and the store size equals the total |
| Scanner.FirstMissing | pwa/scanner.js:359-362 | the first index in a range absent from the store, or none when the whole range is present |
| Scanner.Reassemble | pwa/scanner.js:357-373 | succeeds exactly when every index below the total is stored; otherwise it fails with the smallest missing index; on success the length is the sum of the payload lengths |
| Scanner.ReassembleContent | pwa/scanner.js:366-373 | in the reassembled bytes, payload `i` sits right after the payloads of the lower indices |
| Scanner.ReconstructFile | pwa/scanner.js:357-373 | the collect, sum and copy loops compute what `Reassemble` specifies |
| Scanner.Run | pwa/scanner.js:236-272 | over a session of scans, no stored entry changes and a set total stays; each scan keeps the earlier outputs and adds at most one, so there are no more outputs than scans |
| Generator.NewGenerator | qrxfer/generator.py:12-17 | the constructor always builds `DataChunker()` with its default arguments, so 1248 payload bytes per chunk, and hands `(qr_size + 20, qr_size + 20)` and its fps to the video writer |
| Generator.NewGeneratorChunks | qrxfer/generator.py:12-17 | with the constructor's chunker, counting chunks never fails and gives the ceiling of the length over 1248, and when the count fits 32 bits every `create_chunk` of the loop succeeds |
| Generator.RenderChunks | qrxfer/generator.py:36-40 | the loop stops at the first chunk or QR failure and reports it; otherwise it gives exactly one bordered image per index, image `i` rendered from `create_chunk(data, i, k)` |
| Generator.WriteVideo | qrxfer/generator.py:44-53 | the sink is opened with the frame size and fps, sees every image once in order, and is closed |
| Generator.Generate | qrxfer/generator.py:34-53 | any failure leaves the sink untouched; success exactly when every chunk is created and rendered and the sink opens; a count failure is reported exactly when `calculate_chunks` fails, and a sink failure exactly when every chunk was produced and the sink does not open; every other failure is the first failing chunk or render, reported with its index; then the sink sees open, frame `i` for each index in ascending order, and close, and every frame's side (`qr_size + 2 * border_width` with a border of 10) equals the frame size `qr_size + 20` given to the writer |
| Transfer.ParseCreateChunk | pwa/scanner.js:241-252 | the scanner reads back what `create_chunk` wrote: the count and index as signed numbers, the slice, and the packed CRC, and the CRC check passes |
| Transfer.FramesDeliver | qrxfer/chunker.py:22-37 | when all chunks of a split into fewer than 2^31 chunks are created, each one is read back as its own index and count, carrying its own slice |
| Transfer.StoreReassembles | pwa/scanner.js:357-373 | a store holding the payloads of every index of the split reassembles into the data |
| Transfer.ScanNew | pwa/scanner.js:254-271 | a genuine chunk with a new index is stored, and the payload is produced exactly when it was the last index missing |
| Transfer.ScanRepeat | pwa/scanner.js:255 | a genuine chunk whose index is already stored changes nothing |
| Transfer.ScanNoise | pwa/scanner.js:236-252 | bytes that are too short or fail the CRC change nothing |
| Transfer.ScanStep | pwa/scanner.js:236-272 | one scan moves the scanner from the state for the indices seen to the state for those plus the scanned one, and produces the payload exactly when that completes the set |
| Transfer.RunInvariant | pwa/scanner.js:236-272 | after any sequence of sightings the scanner holds exactly the payloads of the indices seen, and its outputs are one copy of the data once all indices are seen and nothing before |
| Transfer.AllSeenRange | pwa/scanner.js:269-271 | every index is among the sightings exactly when the seen set is `0 .. k-1` |
| Transfer.EndToEnd | pwa/scanner.js:254-271 | scanning the generated chunks in any order, with repeats and dropped scans, outputs the data exactly once if every index is scanned and nothing otherwise |
| Transfer.DefaultEncodes | qrxfer/chunker.py:9-37 | the default chunker creates every chunk of any payload whose chunk count fits in 32 bits |

## Left out

- Browser I/O in `pwa/scanner.js`: the camera, the DOM and timing (`start`, `stop`, `scan`, `updateUI`, `updateStatus`, `downloadFile`). The model's session keeps processing scans after a reconstruction. That changes nothing here, because once every index is stored further genuine scans are repeats.
- `detectGreenBorder`: pixel heuristics on floating-point colour ratios. They decide which frames reach the decoder, not what it does with them.
- The `base64ToBytes` and `TextEncoder` fallbacks at the top of `processQRCode`. They guess how a QR library hands over data. The model starts from the decoded bytes.
- `pako.inflate`, JSZip and the download in `reconstructFile` after line 373: foreign libraries. The model stops at the reassembled compressed bytes, so it includes the `Missing chunk` error but not decompression errors.
- The `try`/`catch` around `processQRCode`: it only logs.
- `reconstructFile` is `async` and is not awaited. The model produces its result in the same step as the scan that triggers it.
- `pwa/service-worker.js`: caching and network plumbing.
- `qrxfer/compressor.py`: zip and zlib calls and temporary files. Its output is an arbitrary byte string here.
- `qrxfer/qr_generator.py`: the qrcode and PIL calls. Rendering is the parameter `render`, which yields nothing when the library raises. Only the border arithmetic is modelled.
- `qrxfer/video_writer.py`: a cv2 sink. Whether `open` succeeds is the parameter `sinkOpens`, and frames are recorded as events.
- The file-existence check, the temporary-zip cleanup, the logging, the duration computation and `_log_summary` in `generate`. These are filesystem I/O, floating point and logging.
- `app.py` (Gradio UI) and `main.py` (CLI).
- A parallel rendering pool and a countdown lead-in of frames: the code of `generate` has neither. `app.py` passes a worker count that `QRVideoGenerator.__init__` does not accept. The model follows the sequential loop in the code.
- Determinism of `create_chunk`: every operation here is a mathematical function, so equal inputs give equal outputs by construction. No lemma states it.
- Transfer.EndToEnd: assumes fewer than 2^31 chunks. The scanner reads counts and indices of 2^31 and above as negative numbers, so larger transfers cannot be reassembled (see `Wire.Int32OfPackU32`).
- Transfer.EndToEnd: assumes QR rendering, the video and the camera deliver each chunk's bytes unchanged. Bytes that reach the scanner otherwise are taken to be too short or to fail the CRC. A corrupted chunk whose CRC still matches is outside the theorem.
- Transfer.EndToEnd: assumes a non-empty payload (`0 < k`), for the reason given on the next line.
- Transfer.RunInvariant: assumes a non-empty payload. For an empty payload `calculate_chunks` gives 0 chunks, the video has no frames and the scanner never produces output.

=== FILE: chunker.dfy ===
/**
 * The encoder's chunking (`DataChunker` in the Python package): how much
 * payload one QR code carries, how many chunks a payload needs, and the
 * bytes of one chunk: total count, index, payload slice and the CRC-32 of
 * the slice, each number four bytes little-endian.
 */
module Chunker {
  import opened Wrappers
  import opened Wire
  import Crc

  /** The sizes a chunker is built from; `ChunkSize` is the payload room left in one QR code. */
  datatype DataChunker = DataChunker(maxQrCapacity: int, headerSize: int, checksumSize: int)
  {
    function ChunkSize(): int {
      maxQrCapacity - headerSize - checksumSize
    }
  }

  /** Why `calculate_chunks` or `create_chunk` raises. */
  datatype ChunkError =
    | ZeroChunkSize    // floor division by a zero chunk size (ZeroDivisionError)
    | PackOutOfRange   // `struct.pack('<II', ...)` given a number outside 0 .. 2^32-1 (struct.error)
    | ChunkTooLarge    // the serialised chunk is longer than the QR capacity (ValueError)

  /** `DataChunker()` with its default arguments. */
  function Default(): (c: DataChunker)
    ensures c.ChunkSize() == 1248
    ensures c.headerSize + c.checksumSize == 12
  {
    DataChunker(1260, 8, 4)
  }

  function Min(a: int, b: int): int {
    if a <= b then a else b
  }

  /** Python's `a // b`: the quotient rounded toward negative infinity. */
  function FloorDiv(a: int, b: int): (q: int)
    requires b != 0
    ensures b > 0 ==> q * b <= a < q * b + b
    ensures b < 0 ==> q * b + b < a <= q * b
  {
    if b > 0 then a / b else (-a) / (-b)
  }

  /** `k` is the least number of `cs`-byte pieces that hold `n` bytes. */
  predicate IsCeiling(k: int, n: int, cs: int) {
    0 <= k && (k - 1) * cs < n <= k * cs
  }

  /** `calculate_chunks(data_size)`: `(data_size + chunk_size - 1) // chunk_size`. */
  function CalculateChunks(c: DataChunker, dataSize: nat): (r: Result<int, ChunkError>)
    ensures r.Failure? <==> c.ChunkSize() == 0
    ensures r.Failure? ==> r.error == ZeroChunkSize
    ensures c.ChunkSize() > 0 ==> r.Success? && IsCeiling(r.value, dataSize, c.ChunkSize())
    ensures c.ChunkSize() > 0 && dataSize == 0 ==> r == Success(0)
  {
    var cs := c.ChunkSize();
    if cs == 0 then Failure(ZeroChunkSize) else Success(FloorDiv(dataSize + cs - 1, cs))
  }

  /** A Python slice bound: a negative bound counts from the end, and the result is clamped to `0 .. len`. */
  function PyBound(k: int, len: nat): (b: nat)
    ensures b <= len
    ensures 0 <= k <= len ==> b == k
    ensures k > len ==> b == len
    ensures k < 0 && 0 <= k + len ==> b == k + len
    ensures k + len < 0 ==> b == 0
  {
    if k < 0 then (if k + len < 0 then 0 else k + len) else if k > len then len else k
  }

  /** Python's `s[i:j]`. */
  function PySlice(s: Bytes, i: int, j: int): (r: Bytes)
    ensures 0 <= i <= j <= |s| ==> r == s[i..j]
    ensures |r| <= |s|
  {
    var lo := PyBound(i, |s|);
    var hi := PyBound(j, |s|);
    if hi <= lo then [] else s[lo..hi]
  }

  /** The payload of chunk `index`: `data[start:end]`, `start = index * chunk_size`, `end = min(start + chunk_size, len(data))`. */
  function ChunkData(c: DataChunker, data: Bytes, index: int): (r: Bytes)
    ensures |r| <= |data|
    ensures 0 <= c.ChunkSize() && 0 <= index * c.ChunkSize() <= |data| ==>
      r == data[index * c.ChunkSize()..Min(index * c.ChunkSize() + c.ChunkSize(), |data|)]
  {
    var start := index * c.ChunkSize();
    PySlice(data, start, Min(start + c.ChunkSize(), |data|))
  }

  /** `b` is the chunk `total ++ index ++ slice ++ crc32(slice)`: the CRC covers the slice and not the header. */
  predicate IsFrame(b: Bytes, total: int, index: int, slice: Bytes) {
    && |b| == 12 + |slice|
    && IsU32(total) && IsU32(index)
    && b[..4] == PackU32(total)
    && b[4..8] == PackU32(index)
    && b[8..|b| - 4] == slice
    && b[|b| - 4..] == PackU32(Crc.ToUint32(Crc.Checksum(slice)))
  }

  /**
   * `create_chunk(data, chunk_index, total_chunks)`. Packing the header
   * fails first when either number is outside the unsigned 32-bit range;
   * otherwise the chunk is refused exactly when it is longer than the QR
   * capacity.
   */
  function CreateChunk(c: DataChunker, data: Bytes, index: int, total: int): (r: Result<Bytes, ChunkError>)
    ensures (r.Failure? && r.error == PackOutOfRange) <==> !(IsU32(total) && IsU32(index))
    ensures IsU32(total) && IsU32(index) ==>
      (r.Success? <==> 12 + |ChunkData(c, data, index)| <= c.maxQrCapacity)
    ensures r.Failure? ==> r.error != ZeroChunkSize
    ensures r.Success? ==> IsFrame(r.value, total, index, ChunkData(c, data, index))
  {
    if !(IsU32(total) && IsU32(index)) then
      Failure(PackOutOfRange)
    else
      var slice := ChunkData(c, data, index);
      var crc := Crc.Checksum(slice);
      var full := PackU32(total) + PackU32(index) + slice + PackU32(Crc.ToUint32(crc));
      Layout(PackU32(total), PackU32(index), slice, PackU32(Crc.ToUint32(crc)));
      if |full| > c.maxQrCapacity then Failure(ChunkTooLarge) else Success(full)
  }

  /** Where the four parts of a chunk sit in it. */
  lemma Layout(a: Bytes, b: Bytes, s: Bytes, d: Bytes)
    requires |a| == 4 && |b| == 4 && |d| == 4
    ensures var f := a + b + s + d;
      && |f| == 12 + |s|
      && f[..4] == a && f[4..8] == b && f[8..|f| - 4] == s && f[|f| - 4..] == d
  {
  }

  /** Within the payload, chunk `i` starts at `i * chunk_size` and is at most `chunk_size` long. */
  lemma SliceBounds(c: DataChunker, data: Bytes, i: int)
    requires c.ChunkSize() > 0 && 0 <= i
    ensures var start := i * c.ChunkSize();
      ChunkData(c, data, i) == data[Min(start, |data|)..Min(start + c.ChunkSize(), |data|)]
    ensures |ChunkData(c, data, i)| <= c.ChunkSize()
  {
    var cs := c.ChunkSize();
    var start := i * cs;
    MulMonotone(0, i, cs);
    var end := Min(start + cs, |data|);
    if start <= |data| {
      assert PyBound(start, |data|) == start && PyBound(end, |data|) == end;
    } else {
      assert PyBound(start, |data|) == |data| && end == |data|;
    }
  }

  /**
   * Every chunk but the last is exactly `chunk_size` long; the last holds
   * between one byte and `chunk_size` bytes.
   */
  lemma SliceLengths(c: DataChunker, data: Bytes, i: int)
    requires c.ChunkSize() > 0
    requires 0 <= i < CalculateChunks(c, |data|).value
    ensures var k := CalculateChunks(c, |data|).value;
      && (i < k - 1 ==> |ChunkData(c, data, i)| == c.ChunkSize())
      && (i == k - 1 ==> 0 < |ChunkData(c, data, i)| <= c.ChunkSize())
  {
    var cs := c.ChunkSize();
    var k := CalculateChunks(c, |data|).value;
    assert (k - 1) * cs < |data|;
    var start := i * cs;
    MulMonotone(i, k - 1, cs);
    assert start < |data|;
    var end := Min(start + cs, |data|);
    SliceBounds(c, data, i);
    var slice := ChunkData(c, data, i);
    assert slice == data[start..end];
    assert |slice| == end - start;
    if i < k - 1 {
      MulMonotone(i + 1, k - 1, cs);
      assert (i + 1) * cs == start + cs;
      assert end == start + cs;
    }
  }

  lemma MulMonotone(a: int, b: int, m: nat)
    requires a <= b
    ensures a * m <= b * m
  {
  }

  /** The first `m` chunk payloads, in index order. */
  function Slices(c: DataChunker, data: Bytes, m: nat): (r: seq<Bytes>)
    ensures |r| == m
    ensures forall i :: 0 <= i < m ==> r[i] == ChunkData(c, data, i)
  {
    seq(m, i requires 0 <= i < m => ChunkData(c, data, i))
  }

  /** The first `m` payloads, concatenated, are the first `m * chunk_size` bytes of the data. */
  lemma {:induction false} SlicesPrefix(c: DataChunker, data: Bytes, m: nat)
    requires c.ChunkSize() > 0
    ensures Flatten(Slices(c, data, m)) == data[..Min(m * c.ChunkSize(), |data|)]
  {
    if m == 0 {
      assert Slices(c, data, 0) == [];
    } else {
      SlicesPrefix(c, data, m - 1);
      SlicesLast(c, data, m);
      NextSlice(c, data, m - 1);
    }
  }

  lemma SlicesLast(c: DataChunker, data: Bytes, m: nat)
    requires m > 0
    ensures Flatten(Slices(c, data, m)) == Flatten(Slices(c, data, m - 1)) + ChunkData(c, data, m - 1)
  {
    assert Slices(c, data, m)[..m - 1] == Slices(c, data, m - 1);
  }

  /** The payload of chunk `i` continues the prefix that ends where chunk `i` starts. */
  lemma NextSlice(c: DataChunker, data: Bytes, i: nat)
    requires c.ChunkSize() > 0
    ensures data[..Min(i * c.ChunkSize(), |data|)] + ChunkData(c, data, i)
      == data[..Min((i + 1) * c.ChunkSize(), |data|)]
  {
    var cs := c.ChunkSize();
    SliceBounds(c, data, i);
    assert (i + 1) * cs == i * cs + cs;
    var lo := Min(i * cs, |data|);
    var hi := Min(i * cs + cs, |data|);
    assert data[..lo] + data[lo..hi] == data[..hi];
  }

  /** Concatenating the payloads of chunks `0 .. calculate_chunks(len(data)) - 1`, in order, gives the data back. */
  lemma ConcatSlices(c: DataChunker, data: Bytes)
    requires c.ChunkSize() > 0
    ensures Flatten(Slices(c, data, CalculateChunks(c, |data|).value)) == data
  {
    var k := CalculateChunks(c, |data|).value;
    SlicesPrefix(c, data, k);
    assert data[..|data|] == data;
  }

  /**
   * A chunker whose header and checksum allowance covers the 12 bytes the
   * frame really adds never refuses a chunk whose numbers fit in 32 bits;
   * the default chunker is one.
   */
  lemma NeverTooLarge(c: DataChunker, data: Bytes, index: int, total: int)
    requires c.ChunkSize() > 0 && c.headerSize + c.checksumSize >= 12
    requires IsU32(total) && IsU32(index)
    ensures CreateChunk(c, data, index, total).Success?
  {
    SliceBounds(c, data, index);
  }
}

=== FILE: crc32.dfy ===
/**
 * CRC-32 as used on both ends of the chunk protocol: the reflected CRC with
 * polynomial 0xEDB88320, register preset to all ones and complemented at the
 * end (the zlib CRC-32, as in the sample code of section 8 of RFC 1952).
 *
 * The 32-bit register is a sequence of 32 booleans, bit 0 (the least
 * significant bit) first, so that XOR is pointwise and a right shift moves
 * every bit one index down.
 *
 * `Checksum` is the bit-at-a-time definition and stands for `zlib.crc32` on the
 * encoder side; `TableCrc32` is the byte-at-a-time routine the scanner runs
 * with a 256-entry table, and its contract states that the two are equal.
 */
module Crc {
  import opened Wire

  /** A 32-bit register, least significant bit first. */
  type Reg = r: seq<bool> | |r| == 32 witness seq(32, i => false)

  /** The low `n` bits of `v`, least significant first. */
  function BitsOf(v: nat, n: nat): (r: seq<bool>)
    ensures |r| == n
    decreases n
  {
    if n == 0 then [] else [v % 2 == 1] + BitsOf(v / 2, n - 1)
  }

  /** The register holding the unsigned 32-bit value `v`. */
  function FromUint32(v: int): Reg
    requires IsU32(v)
  {
    BitsOf(v, 32)
  }

  /** The reflected polynomial `0xedb88320` of the scanner's table construction. */
  const POLY: Reg := FromUint32(0xEDB8_8320)

  function Ones(): Reg { seq(32, i => true) }

  function Xor(a: Reg, b: Reg): (r: Reg)
    ensures forall i :: 0 <= i < 32 ==> r[i] == (a[i] != b[i])
  {
    seq(32, i requires 0 <= i < 32 => a[i] != b[i])
  }

  /** `x >>> k`: bit `i` of the result is bit `i + k` of `x`, and the top `k` bits are clear. */
  function Shr(x: Reg, k: nat): (r: Reg)
    ensures forall i :: 0 <= i < 32 ==> r[i] == (i + k < 32 && x[i + k])
  {
    seq(32, i requires 0 <= i < 32 => i + k < 32 && x[i + k])
  }

  /** `x & 0xff` */
  function LowByte(x: Reg): (r: Reg)
    ensures forall i :: 0 <= i < 32 ==> r[i] == (i < 8 && x[i])
  {
    seq(32, i requires 0 <= i < 32 => i < 8 && x[i])
  }

  /** `x & 0xffffff00` */
  function HighBits(x: Reg): (r: Reg)
    ensures forall i :: 0 <= i < 32 ==> r[i] == (8 <= i && x[i])
  {
    seq(32, i requires 0 <= i < 32 => 8 <= i && x[i])
  }

  /** Bit `i` of a byte. */
  function ByteBit(b: Byte, i: nat): bool
    requires i < 8
  {
    (b / Pow2(i)) % 2 == 1
  }

  /** A byte zero-extended to a register. */
  function Widen(b: Byte): (r: Reg)
    ensures forall i :: 8 <= i < 32 ==> !r[i]
  {
    seq(32, i requires 0 <= i < 32 => i < 8 && ByteBit(b, i))
  }

  /** One shift of the reflected register: shift right, and XOR in the polynomial when a 1 falls out. */
  function BitStep(c: Reg): Reg {
    seq(32, i requires 0 <= i < 32 => (i < 31 && c[i + 1]) != (c[0] && POLY[i]))
  }

  /** `n` shifts of the register. */
  function Steps(c: Reg, n: nat): Reg
    decreases n
  {
    if n == 0 then c else BitStep(Steps(c, n - 1))
  }

  /** Bitwise register update for one byte. */
  function Update(c: Reg, b: Byte): Reg {
    Steps(Xor(c, Widen(b)), 8)
  }

  /** The register after feeding `data` into a register holding `c`. */
  function Register(c: Reg, data: Bytes): Reg
    decreases |data|
  {
    if |data| == 0 then c else Update(Register(c, data[..|data| - 1]), data[|data| - 1])
  }

  /** CRC-32 of `data` (the register behind `zlib.crc32(data) & 0xffffffff`); the empty string has CRC 0. */
  function Checksum(data: Bytes): (r: Reg)
    ensures data == [] ==> ToUint32(r) == 0
  {
    NoBitsValue(Xor(Ones(), Ones()));
    Xor(Register(Ones(), data), Ones())
  }

  /** Entry `n` of the scanner's table: register `n` (a value below 256) after eight shifts. */
  function TableEntry(n: Reg): Reg {
    Steps(n, 8)
  }

  /** `crc = table[(crc ^ byte) & 0xff] ^ (crc >>> 8)` */
  function TableUpdate(c: Reg, b: Byte): Reg {
    Xor(TableEntry(LowByte(Xor(c, Widen(b)))), Shr(c, 8))
  }

  function TableRegister(c: Reg, data: Bytes): Reg
    decreases |data|
  {
    if |data| == 0 then c else TableUpdate(TableRegister(c, data[..|data| - 1]), data[|data| - 1])
  }

  /** The scanner's table-driven CRC-32 of `data`, before it is read as a number: the CRC-32 the encoder packs. */
  function TableCrc32(data: Bytes): (r: Reg)
    ensures r == Checksum(data)
  {
    TableRegisterAgrees(Ones(), data);
    Xor(TableRegister(Ones(), data), Ones())
  }

  /** Unsigned value of a bit string, least significant bit first. */
  function BitsValue(bits: seq<bool>): (r: nat)
    ensures r < Pow2(|bits|)
    decreases |bits|
  {
    if |bits| == 0 then 0 else (if bits[0] then 1 else 0) + 2 * BitsValue(bits[1..])
  }

  function Pow2(n: nat): (r: nat)
    ensures r > 0
  {
    if n == 0 then 1 else 2 * Pow2(n - 1)
  }

  /** The non-negative number a register denotes (Python's `int`, JavaScript's `x >>> 0`). */
  function ToUint32(x: Reg): (r: int)
    ensures IsU32(r)
  {
    assert Pow2(8) == 0x100 && Pow2(16) == 0x1_0000 && Pow2(24) == 0x100_0000 && Pow2(32) == TWO_32;
    BitsValue(x)
  }

  /** The number a register denotes after a JavaScript bitwise operator such as `& 0xffffffff`. */
  function ToInt32(x: Reg): (r: int)
    ensures -TWO_31 <= r < TWO_31
  {
    Signed(ToUint32(x))
  }

  /** A bit string with no bit set has value 0. */
  lemma {:induction false} NoBitsValue(bits: seq<bool>)
    requires forall i :: 0 <= i < |bits| ==> !bits[i]
    ensures BitsValue(bits) == 0
    decreases |bits|
  {
    if |bits| > 0 {
      NoBitsValue(bits[1..]);
    }
  }

  /** Reading back the bits of a value below `2^n` gives the value. */
  lemma {:induction false} BitsOfValue(v: nat, n: nat)
    requires v < Pow2(n)
    ensures BitsValue(BitsOf(v, n)) == v
    decreases n
  {
    if n > 0 {
      BitsOfValue(v / 2, n - 1);
      assert BitsOf(v, n)[1..] == BitsOf(v / 2, n - 1);
    }
  }

  /** Taking the bits of a bit string's value gives the bit string back. */
  lemma {:induction false} ValueBitsOf(bits: seq<bool>)
    ensures BitsOf(BitsValue(bits), |bits|) == bits
    decreases |bits|
  {
    if |bits| > 0 {
      var v := BitsValue(bits);
      assert v / 2 == BitsValue(bits[1..]);
      ValueBitsOf(bits[1..]);
      assert bits == [bits[0]] + bits[1..];
    }
  }

  /** A register and its unsigned value determine each other. */
  lemma Uint32RoundTrip(v: int, x: Reg)
    requires IsU32(v)
    ensures ToUint32(FromUint32(v)) == v
    ensures FromUint32(ToUint32(x)) == x
  {
    assert Pow2(8) == 0x100 && Pow2(16) == 0x1_0000 && Pow2(24) == 0x100_0000 && Pow2(32) == TWO_32;
    BitsOfValue(v, 32);
    ValueBitsOf(x);
  }

  /** The polynomial register holds `0xedb88320`. */
  lemma PolyValue()
    ensures ToUint32(POLY) == 0xEDB8_8320
  {
    Uint32RoundTrip(0xEDB8_8320, POLY);
  }

  // Linearity of the shift register over XOR.

  lemma BitStepLinear(a: Reg, b: Reg)
    ensures BitStep(Xor(a, b)) == Xor(BitStep(a), BitStep(b))
  {
  }

  lemma {:induction false} StepsLinear(a: Reg, b: Reg, n: nat)
    ensures Steps(Xor(a, b), n) == Xor(Steps(a, n), Steps(b, n))
    decreases n
  {
    if n > 0 {
      StepsLinear(a, b, n - 1);
      BitStepLinear(Steps(a, n - 1), Steps(b, n - 1));
    }
  }

  /** The low `k` bits of `x` are clear. */
  predicate ClearBelow(x: Reg, k: nat) {
    forall i :: 0 <= i < k && i < 32 ==> !x[i]
  }

  /** A register whose low bit is clear shifts without the polynomial. */
  lemma ClearStep(y: Reg)
    requires !y[0]
    ensures BitStep(y) == Shr(y, 1)
  {
  }

  lemma ShrShr(y: Reg, j: nat, k: nat)
    ensures Shr(Shr(y, j), k) == Shr(y, j + k)
  {
  }

  /** With the low `n` bits clear, `n` shifts never add the polynomial: they are `>>> n`. */
  lemma {:induction false} StepsClear(y: Reg, n: nat)
    requires n <= 32 && ClearBelow(y, n)
    ensures Steps(y, n) == Shr(y, n)
    decreases n
  {
    if n == 0 {
      assert Shr(y, 0) == y;
    } else {
      StepsClear(y, n - 1);
      ClearStep(Shr(y, n - 1));
      ShrShr(y, n - 1, 1);
    }
  }

  /** One table lookup does what eight bitwise shifts do. */
  lemma TableUpdateAgrees(c: Reg, b: Byte)
    ensures TableUpdate(c, b) == Update(c, b)
  {
    var x := Xor(c, Widen(b));
    assert Xor(LowByte(x), HighBits(x)) == x;
    StepsLinear(LowByte(x), HighBits(x), 8);
    StepsClear(HighBits(x), 8);
    assert Shr(HighBits(x), 8) == Shr(c, 8);
  }

  lemma {:induction false} TableRegisterAgrees(c: Reg, data: Bytes)
    ensures TableRegister(c, data) == Register(c, data)
    decreases |data|
  {
    if |data| > 0 {
      TableRegisterAgrees(c, data[..|data| - 1]);
      TableUpdateAgrees(Register(c, data[..|data| - 1]), data[|data| - 1]);
    }
  }
}

=== FILE: generator.dfy ===
/**
 * The frame loop of `QRVideoGenerator.generate`: count the chunks, create
 * and render them in index order, then open the video sink, write every
 * image in that order and close it.
 *
 * Rendering a QR code is the parameter `render` (`None` when the QR library
 * raises); whether the video sink opens is the parameter `sinkOpens`. The
 * sink is observed through the events it receives.
 */
module Generator {
  import opened Wrappers
  import opened Wire
  import opened Chunker

  /** `border_width` of the QR image generator. */
  const BORDER_WIDTH: int := 10

  datatype Generator = Generator(chunker: DataChunker, qrVersion: int, qrSize: int, fps: int)

  /** `QRVideoGenerator(qr_version, qr_size, fps)`: always the default chunker. */
  function NewGenerator(qrVersion: int, qrSize: int, fps: int): (g: Generator)
    ensures g.chunker == Default() && g.chunker.ChunkSize() == 1248
    ensures FrameSize(g) == (qrSize + 20, qrSize + 20) && g.fps == fps
  {
    Generator(Default(), qrVersion, qrSize, fps)
  }

  /**
   * With the chunker the constructor builds, counting never fails, and when
   * the count fits the header's 32 bits no chunk is refused: `generate` can
   * then fail only in rendering or at the sink.
   */
  lemma NewGeneratorChunks(qrVersion: int, qrSize: int, fps: int, compressed: Bytes)
    ensures var g := NewGenerator(qrVersion, qrSize, fps);
      && CalculateChunks(g.chunker, |compressed|).Success?
      && IsCeiling(CalculateChunks(g.chunker, |compressed|).value, |compressed|, 1248)
    ensures var g := NewGenerator(qrVersion, qrSize, fps);
      var k := CalculateChunks(g.chunker, |compressed|).value;
      IsU32(k) ==> forall i :: 0 <= i < k ==> ChunkOf(g, compressed, k)(i).Success?
  {
  }

  /** A rendered QR code `qrSize` pixels wide, pasted onto a square background with a border on every side. */
  datatype Image<M> = Image(side: int, qr: M)

  function Bordered<M>(qrSize: int, qr: M): Image<M> {
    Image(qrSize + 2 * BORDER_WIDTH, qr)
  }

  /** `frame_size` handed to the video writer. */
  function FrameSize(g: Generator): (int, int) {
    (g.qrSize + 20, g.qrSize + 20)
  }

  /** What the video sink receives. */
  datatype SinkEvent<M> = Opened(width: int, height: int, fps: int) | Wrote(frame: Image<M>) | Closed

  /** Why `generate` raises inside its loop. */
  datatype GenError =
    | CountFailed(error: ChunkError)               // `calculate_chunks` raised
    | ChunkFailed(index: int, error: ChunkError)   // `create_chunk` raised for this index
    | RenderFailed(index: int)                     // the QR library raised for this index
    | SinkFailed                                   // the video writer did not open

  /** `create_chunk(compressed_data, i, num_chunks)` for every index `i`. */
  function ChunkOf(g: Generator, data: Bytes, k: int): int -> Result<Bytes, ChunkError> {
    i => CreateChunk(g.chunker, data, i, k)
  }

  /** Chunk `i` is created and its QR code rendered. */
  predicate Renders<M>(chunkOf: int -> Result<Bytes, ChunkError>, render: Bytes -> Option<M>, i: int) {
    chunkOf(i).Success? && render(chunkOf(i).value).Some?
  }

  /** The bordered image of chunk `i`. */
  function FrameOf<M>(qrSize: int, chunkOf: int -> Result<Bytes, ChunkError>, render: Bytes -> Option<M>, i: int): Image<M>
    requires Renders(chunkOf, render, i)
  {
    Bordered(qrSize, render(chunkOf(i).value).value)
  }

  /** The chunk count is computed and every chunk is created and rendered. */
  predicate Producible<M>(g: Generator, data: Bytes, render: Bytes -> Option<M>) {
    && CalculateChunks(g.chunker, |data|).Success?
    && var k := CalculateChunks(g.chunker, |data|).value;
      forall i :: 0 <= i < k ==> Renders(ChunkOf(g, data, k), render, i)
  }

  function NumFrames(k: int): nat {
    if k < 0 then 0 else k
  }

  /** The first failure of the chunk-and-render loop over `k` chunks, as `generate` meets it. */
  predicate FailsAt<M>(chunkOf: int -> Result<Bytes, ChunkError>, render: Bytes -> Option<M>, k: int, e: GenError) {
    && (e.ChunkFailed? || e.RenderFailed?)
    && 0 <= e.index < k
    && (forall j :: 0 <= j < e.index ==> Renders(chunkOf, render, j))
    && (e.ChunkFailed? ==> chunkOf(e.index) == Failure(e.error))
    && (e.RenderFailed? ==> chunkOf(e.index).Success? && render(chunkOf(e.index).value).None?)
  }

  /** The chunk-and-render loop of `generate`: create and render chunks `0 .. k-1` in order, stopping at the first failure. */
  method RenderChunks<M>(qrSize: int, chunkOf: int -> Result<Bytes, ChunkError>, render: Bytes -> Option<M>, k: int)
    returns (images: seq<Image<M>>, failure: Option<GenError>)
    ensures failure.None? <==> forall j :: 0 <= j < k ==> Renders(chunkOf, render, j)
    ensures failure.Some? ==> FailsAt(chunkOf, render, k, failure.value)
    ensures failure.None? ==> |images| == NumFrames(k)
    ensures failure.None? ==> forall j :: 0 <= j < |images| ==> images[j] == FrameOf(qrSize, chunkOf, render, j)
  {
    images := [];
    var i := 0;
    while i < k
      invariant 0 <= i && (i <= k || i == 0)
      invariant |images| == i
      invariant forall j :: 0 <= j < i ==> Renders(chunkOf, render, j)
      invariant forall j :: 0 <= j < i ==> images[j] == FrameOf(qrSize, chunkOf, render, j)
    {
      var chunk := chunkOf(i);
      if chunk.Failure? {
        assert !Renders(chunkOf, render, i);
        return [], Some(ChunkFailed(i, chunk.error));
      }
      var qr := render(chunk.value);
      if qr.None? {
        assert !Renders(chunkOf, render, i);
        return [], Some(RenderFailed(i));
      }
      images := images + [Bordered(qrSize, qr.value)];
      i := i + 1;
    }
    failure := None;
  }

  /** The writing step of `generate`: open the sink with the frame size, write the images in order, close it. */
  method WriteVideo<M>(g: Generator, images: seq<Image<M>>) returns (events: seq<SinkEvent<M>>)
    ensures |events| == |images| + 2
    ensures events[0] == Opened(FrameSize(g).0, FrameSize(g).1, g.fps)
    ensures events[|events| - 1] == Closed
    ensures forall j :: 0 <= j < |images| ==> events[j + 1] == Wrote(images[j])
  {
    var size := FrameSize(g);
    events := [Opened(size.0, size.1, g.fps)];
    var idx := 0;
    while idx < |images|
      invariant 0 <= idx <= |images|
      invariant |events| == idx + 1 && events[0] == Opened(size.0, size.1, g.fps)
      invariant forall j :: 0 <= j < idx ==> events[j + 1] == Wrote(images[j])
    {
      events := events + [Wrote(images[idx])];
      idx := idx + 1;
    }
    events := events + [Closed];
  }

  /**
   * The frame loop of `generate`, from counting the chunks to closing the
   * sink. Every image is built before the sink is opened, so a failure
   * leaves the sink untouched; each failure is reported at the step that
   * raised it. On success the sink sees the open, one frame per chunk index
   * in ascending order, each of the frame size, and the close.
   */
  method Generate<M>(g: Generator, compressed: Bytes, render: Bytes -> Option<M>, sinkOpens: bool)
    returns (events: seq<SinkEvent<M>>, outcome: Outcome<GenError>)
    ensures outcome.Fail? ==> events == []
    ensures outcome.Pass? <==> Producible(g, compressed, render) && sinkOpens
    ensures outcome == Fail(SinkFailed) <==> Producible(g, compressed, render) && !sinkOpens
    ensures (outcome.Fail? && outcome.error.CountFailed?) <==> CalculateChunks(g.chunker, |compressed|).Failure?
    ensures CalculateChunks(g.chunker, |compressed|).Failure? ==> outcome == Fail(CountFailed(ZeroChunkSize))
    ensures outcome.Fail? && (outcome.error.ChunkFailed? || outcome.error.RenderFailed?) ==>
      var k := CalculateChunks(g.chunker, |compressed|).value;
      FailsAt(ChunkOf(g, compressed, k), render, k, outcome.error)
    ensures outcome.Pass? ==>
      var k := CalculateChunks(g.chunker, |compressed|).value;
      && |events| == NumFrames(k) + 2
      && events[0] == Opened(FrameSize(g).0, FrameSize(g).1, g.fps)
      && events[|events| - 1] == Closed
      && (forall i :: 0 <= i < k ==> events[i + 1] == Wrote(FrameOf(g.qrSize, ChunkOf(g, compressed, k), render, i)))
      && (forall j :: 1 <= j < |events| - 1 ==>
            events[j].Wrote? && events[j].frame.side == FrameSize(g).0 == FrameSize(g).1)
  {
    var count := CalculateChunks(g.chunker, |compressed|);
    if count.Failure? {
      return [], Fail(CountFailed(count.error));
    }
    var images, failure := RenderChunks(g.qrSize, ChunkOf(g, compressed, count.value), render, count.value);
    if failure.Some? {
      return [], Fail(failure.value);
    }
    if !sinkOpens {
      return [], Fail(SinkFailed);
    }
    events := WriteVideo(g, images);
    assert forall j :: 1 <= j < |events| - 1 ==> events[j] == Wrote(images[j - 1]);
    outcome := Pass;
  }
}

=== FILE: scanner.dfy ===
/**
 * The decoding end (`QRScanner` in the browser app): parsing a scanned byte
 * string, checking its CRC with the table-driven routine, the chunk store
 * in which the first copy of an index wins, and the reassembly of the
 * payload in index order.
 *
 * Numbers are the JavaScript numbers the scanner computes: the header fields
 * and the CRC are read with 32-bit bitwise operators and so are signed.
 */
module Scanner {
  import opened Wrappers
  import opened Wire
  import Crc

  /** A scanned chunk split into its fields. */
  datatype Packet = Packet(total: int, index: int, chunkData: Bytes, crc: int)

  /**
   * Bytes 0..4 are the total, 4..8 the index, the last four the CRC and the
   * rest the payload; fewer than 12 bytes cannot be a chunk.
   */
  function ParsePacket(bytes: Bytes): (r: Option<Packet>)
    ensures r.None? <==> |bytes| < 12
    ensures r.Some? ==> |r.value.chunkData| == |bytes| - 12
    ensures r.Some? ==> -TWO_31 <= r.value.total < TWO_31 && -TWO_31 <= r.value.index < TWO_31
    ensures r.Some? ==> -TWO_31 <= r.value.crc < TWO_31
  {
    if |bytes| < 12 then None
    else Some(Packet(Int32Of(bytes, 0), Int32Of(bytes, 4), bytes[8..|bytes| - 4], Int32Of(bytes, |bytes| - 4)))
  }

  /** The bytes a packet was read from. */
  function PacketBytes(p: Packet): Bytes
    requires -TWO_31 <= p.total < TWO_31 && -TWO_31 <= p.index < TWO_31 && -TWO_31 <= p.crc < TWO_31
  {
    Int32Bytes(p.total) + Int32Bytes(p.index) + p.chunkData + Int32Bytes(p.crc)
  }

  /** Parsing is lossless: the packet's fields laid out again are the scanned bytes. */
  lemma ParseLossless(bytes: Bytes)
    requires |bytes| >= 12
    ensures PacketBytes(ParsePacket(bytes).value) == bytes
  {
    var n := |bytes|;
    Int32BytesOf(bytes, 0);
    Int32BytesOf(bytes, 4);
    Int32BytesOf(bytes, n - 4);
    assert bytes == bytes[0..4] + bytes[4..8] + bytes[8..n - 4] + bytes[n - 4..n];
  }

  /**
   * `this.crc32(chunkData) & 0xffffffff === crc`: both sides signed 32-bit
   * numbers, so the check compares the field with zlib's CRC-32 of the
   * payload taken signed.
   */
  function CrcMatches(p: Packet): (ok: bool)
    ensures ok <==> Crc.ToInt32(Crc.Checksum(p.chunkData)) == p.crc
  {
    Crc.ToInt32(Crc.TableCrc32(p.chunkData)) == p.crc
  }

  /**
   * The scanner's check passes exactly when the last four bytes are the
   * CRC-32 of the payload, laid out least significant byte first; the header
   * is not covered.
   */
  lemma CrcCheck(bytes: Bytes)
    requires |bytes| >= 12
    ensures CrcMatches(ParsePacket(bytes).value)
      <==> bytes[|bytes| - 4..] == PackU32(Crc.ToUint32(Crc.Checksum(bytes[8..|bytes| - 4])))
  {
    var n := |bytes|;
    SignedField(bytes, n - 4, Crc.ToUint32(Crc.Checksum(bytes[8..n - 4])));
    assert bytes[n - 4..n] == bytes[n - 4..];
  }

  /** The scanner's state: the stored payloads by index, and the total learnt from the first stored chunk. */
  datatype Scanner = Scanner(chunks: map<int, Bytes>, totalChunks: Option<int>)

  /** A freshly constructed scanner. */
  const EMPTY: Scanner := Scanner(map[], None)

  /** The scanner keeps a scan: at least 12 bytes, intact CRC, and an index it does not hold yet. */
  predicate Accepts(s: Scanner, bytes: Bytes) {
    && ParsePacket(bytes).Some?
    && CrcMatches(ParsePacket(bytes).value)
    && ParsePacket(bytes).value.index !in s.chunks
  }

  /** The state after one scan, and the reconstruction outcome when that scan triggered one. */
  datatype Step = Step(next: Scanner, assembled: Option<Result<Bytes, int>>)

  /** `processQRCode` on the bytes of one decoded QR code. */
  function ProcessQRCode(s: Scanner, bytes: Bytes): (r: Step)
    ensures !Accepts(s, bytes) ==> r == Step(s, None)
    ensures |bytes| < 12 ==> r == Step(s, None)
    ensures Accepts(s, bytes) ==>
      var p := ParsePacket(bytes).value;
      && r.next.chunks == s.chunks[p.index := p.chunkData]
      && r.next.totalChunks == Some(if s.totalChunks.Some? then s.totalChunks.value else p.total)
    ensures forall i :: i in s.chunks ==> i in r.next.chunks && r.next.chunks[i] == s.chunks[i]
    ensures s.totalChunks.Some? ==> r.next.totalChunks == s.totalChunks
    ensures r.assembled.Some? <==> Accepts(s, bytes) && |r.next.chunks| == r.next.totalChunks.value
    ensures r.assembled.Some? ==> r.assembled.value == Reassemble(r.next.chunks, r.next.totalChunks.value)
  {
    match ParsePacket(bytes)
    case None => Step(s, None)
    case Some(p) =>
      if !CrcMatches(p) || p.index in s.chunks then Step(s, None)
      else
        var chunks := s.chunks[p.index := p.chunkData];
        var total := if s.totalChunks.None? then p.total else s.totalChunks.value;
        var next := Scanner(chunks, Some(total));
        Step(next, if |chunks| == total then Some(Reassemble(chunks, total)) else None)
  }

  /** The first index in `from .. total-1` that the store lacks. */
  function FirstMissing(chunks: map<int, Bytes>, total: int, from: int): (r: Option<int>)
    ensures r.None? <==> forall i :: from <= i < total ==> i in chunks
    ensures r.Some? ==> from <= r.value < total && r.value !in chunks
    ensures r.Some? ==> forall i :: from <= i < r.value ==> i in chunks
    decreases total - from
  {
    if from >= total then None
    else if from !in chunks then Some(from)
    else FirstMissing(chunks, total, from + 1)
  }

  /** The stored payloads of indices `0 .. total-1`, in index order. */
  function Ordered(chunks: map<int, Bytes>, total: int): (r: seq<Bytes>)
    requires forall i :: 0 <= i < total ==> i in chunks
    ensures |r| == if total < 0 then 0 else total
    ensures forall i :: 0 <= i < |r| ==> r[i] == chunks[i]
  {
    if total <= 0 then [] else seq(total, i requires 0 <= i < total => chunks[i])
  }

  /**
   * What `reconstructFile` builds before decompressing: the payloads of
   * indices `0 .. totalChunks-1` concatenated in index order, or the first
   * missing index (the `Missing chunk` error).
   */
  function Reassemble(chunks: map<int, Bytes>, total: int): (r: Result<Bytes, int>)
    ensures r.Success? <==> forall i :: 0 <= i < total ==> i in chunks
    ensures r.Failure? ==> 0 <= r.error < total && r.error !in chunks
    ensures r.Failure? ==> forall i :: 0 <= i < r.error ==> i in chunks
    ensures r.Success? ==> |r.value| == SumLengths(Ordered(chunks, total))
  {
    match FirstMissing(chunks, total, 0)
    case Some(i) => Failure(i)
    case None =>
      FlattenLength(Ordered(chunks, total));
      Success(Flatten(Ordered(chunks, total)))
  }

  /** Each stored payload sits in the reassembled bytes right after the payloads of the lower indices. */
  lemma ReassembleContent(chunks: map<int, Bytes>, total: int, i: int)
    requires Reassemble(chunks, total).Success? && 0 <= i < total
    ensures var parts := Ordered(chunks, total);
      var at := SumLengths(parts[..i]);
      && at + |chunks[i]| <= |Reassemble(chunks, total).value|
      && Reassemble(chunks, total).value[at..at + |chunks[i]|] == chunks[i]
  {
    FlattenPart(Ordered(chunks, total), i);
  }

  /**
   * The loops of `reconstructFile`: collect the payloads in index order
   * (stopping at the first missing one), sum their lengths, and copy each
   * into a buffer of that length at a running offset.
   */
  method ReconstructFile(chunks: map<int, Bytes>, total: int) returns (r: Result<Bytes, int>)
    ensures r == Reassemble(chunks, total)
  {
    var sorted: seq<Bytes> := [];
    var i := 0;
    while i < total
      invariant 0 <= i && (i <= total || i == 0)
      invariant |sorted| == i
      invariant forall k :: 0 <= k < i ==> k in chunks && sorted[k] == chunks[k]
    {
      if i !in chunks {
        MissingAt(chunks, total, i);
        return Failure(i);
      }
      sorted := sorted + [chunks[i]];
      i := i + 1;
    }
    assert sorted == Ordered(chunks, total);

    var totalLength := 0;
    var j := 0;
    while j < |sorted|
      invariant 0 <= j <= |sorted|
      invariant totalLength == SumLengths(sorted[..j])
    {
      PrefixStep(sorted, j);
      totalLength := totalLength + |sorted[j]|;
      j := j + 1;
    }
    assert sorted[..|sorted|] == sorted;

    var combined: Bytes := seq(totalLength, _ => 0);
    var offset := 0;
    j := 0;
    while j < |sorted|
      invariant 0 <= j <= |sorted|
      invariant offset == SumLengths(sorted[..j]) <= totalLength
      invariant |combined| == totalLength
      invariant combined[..offset] == Flatten(sorted[..j])
    {
      PrefixStep(sorted, j);
      SumLengthsPrefix(sorted, j + 1, |sorted|);
      Splice(combined, offset, sorted[j]);
      combined := combined[..offset] + sorted[j] + combined[offset + |sorted[j]|..];
      offset := offset + |sorted[j]|;
      j := j + 1;
    }
    FlattenLength(sorted);
    assert combined == combined[..offset];
    r := Success(combined);
  }

  /** The collecting loop stops at `i` exactly when `i` is the first missing index. */
  lemma MissingAt(chunks: map<int, Bytes>, total: int, i: int)
    requires 0 <= i < total && i !in chunks
    requires forall k :: 0 <= k < i ==> k in chunks
    ensures Reassemble(chunks, total) == Failure(i)
  {
    var m := FirstMissing(chunks, total, 0);
    assert m.Some?;
    assert !(m.value < i) && !(i < m.value);
  }

  /** The scanner after a sequence of scans, and every reconstruction outcome along the way. */
  datatype Session = Session(scanner: Scanner, outputs: seq<Result<Bytes, int>>)

  /** Scans processed one after another, in the order the camera saw them. */
  function Run(s: Scanner, scans: seq<Bytes>): (r: Session)
    ensures |r.outputs| <= |scans|
    ensures |scans| > 0 ==>
      var before := Run(s, scans[..|scans| - 1]).outputs;
      |before| <= |r.outputs| <= |before| + 1 && r.outputs[..|before|] == before
    ensures forall i :: i in s.chunks ==> i in r.scanner.chunks && r.scanner.chunks[i] == s.chunks[i]
    ensures s.totalChunks.Some? ==> r.scanner.totalChunks == s.totalChunks
    decreases |scans|
  {
    if |scans| == 0 then Session(s, [])
    else
      var prev := Run(s, scans[..|scans| - 1]);
      var step := ProcessQRCode(prev.scanner, scans[|scans| - 1]);
      Session(step.next, prev.outputs + (if step.assembled.Some? then [step.assembled.value] else []))
  }
}

=== FILE: transfer.dfy ===
/**
 * Both ends of the protocol together. The camera hands the scanner either
 * the bytes of a generated chunk (QR rendering and decoding are taken to be
 * faithful) or bytes the scanner is bound to drop: too short or with a bad
 * CRC. Whatever the order and however many repeats, the scanner reassembles
 * the encoded payload exactly once, at the moment the last missing index
 * arrives, and never before.
 */
module Transfer {
  import opened Wrappers
  import opened Wire
  import opened Chunker
  import opened Scanner
  import Crc

  /**
   * The scanner reads back what `create_chunk` wrote: the total and index
   * (as signed 32-bit numbers), the payload slice, and a CRC that passes.
   */
  lemma ParseCreateChunk(c: DataChunker, data: Bytes, index: int, total: int)
    requires CreateChunk(c, data, index, total).Success?
    ensures var b := CreateChunk(c, data, index, total).value;
      && ParsePacket(b).Some?
      && ParsePacket(b).value.total == Signed(total)
      && ParsePacket(b).value.index == Signed(index)
      && ParsePacket(b).value.chunkData == ChunkData(c, data, index)
      && ParsePacket(b).value.crc == Signed(Crc.ToUint32(Crc.Checksum(ChunkData(c, data, index))))
      && CrcMatches(ParsePacket(b).value)
  {
    var b := CreateChunk(c, data, index, total).value;
    ParseFrame(b, total, index, ChunkData(c, data, index));
  }

  /** Any frame laid out as `create_chunk` lays it out parses back to its fields, and its CRC passes. */
  lemma ParseFrame(b: Bytes, total: int, index: int, slice: Bytes)
    requires IsFrame(b, total, index, slice)
    ensures ParsePacket(b).Some?
    ensures ParsePacket(b).value.total == Signed(total)
    ensures ParsePacket(b).value.index == Signed(index)
    ensures ParsePacket(b).value.chunkData == slice
    ensures ParsePacket(b).value.crc == Signed(Crc.ToUint32(Crc.Checksum(slice)))
    ensures CrcMatches(ParsePacket(b).value)
  {
    assert b[0..4] == b[..4];
    assert b[|b| - 4..|b|] == b[|b| - 4..];
    FieldValue(b, 0, total);
    FieldValue(b, 4, index);
    FieldValue(b, |b| - 4, Crc.ToUint32(Crc.Checksum(slice)));
    CrcCheck(b);
  }

  /** `calculate_chunks` splits `data` into `k` chunks. */
  predicate Splits(c: DataChunker, data: Bytes, k: int) {
    c.ChunkSize() > 0 && CalculateChunks(c, |data|) == Success(k)
  }

  /** `calculate_chunks` gives `k` and every one of the `k` chunks is created. */
  predicate Encodes(c: DataChunker, data: Bytes, k: int) {
    && Splits(c, data, k)
    && forall i :: 0 <= i < k ==> CreateChunk(c, data, i, k).Success?
  }

  /** The generated chunks by index; an index whose chunk is not created shows nothing. */
  function Frames(c: DataChunker, data: Bytes, k: int): int -> Bytes {
    i => if CreateChunk(c, data, i, k).Success? then CreateChunk(c, data, i, k).value else []
  }

  /** `b` parses to chunk `index` of `total`, carrying `payload`, with a CRC that passes. */
  predicate Carries(b: Bytes, total: int, index: int, payload: Bytes) {
    && ParsePacket(b).Some?
    && ParsePacket(b).value.total == total
    && ParsePacket(b).value.index == index
    && ParsePacket(b).value.chunkData == payload
    && CrcMatches(ParsePacket(b).value)
  }

  /** Frame `i` of `frames`, for every index of the split, is read back as chunk `i` of `k` with its own slice. */
  predicate Delivers(c: DataChunker, data: Bytes, k: int, frames: int -> Bytes) {
    forall i :: 0 <= i < k ==> Carries(frames(i), k, i, ChunkData(c, data, i))
  }

  /** When fewer than 2^31 chunks are all created, the scanner reads each one back as what it is. */
  lemma FramesDeliver(c: DataChunker, data: Bytes, k: int)
    requires Encodes(c, data, k) && k < TWO_31
    ensures Delivers(c, data, k, Frames(c, data, k))
  {
    forall i | 0 <= i < k
      ensures Carries(Frames(c, data, k)(i), k, i, ChunkData(c, data, i))
    {
      ParseCreateChunk(c, data, i, k);
    }
  }

  /** What the camera hands the scanner: frame `index` of the video, or other bytes. */
  datatype Sighting = Frame(index: int) | Noise(bytes: Bytes)

  /** Bytes that fail the length check or the CRC check. */
  predicate Rejected(bytes: Bytes) {
    ParsePacket(bytes).None? || !CrcMatches(ParsePacket(bytes).value)
  }

  /** A frame of one of the `k` chunks, or bytes the scanner drops. */
  predicate Valid(k: int, s: Sighting) {
    match s
    case Frame(i) => 0 <= i < k
    case Noise(b) => Rejected(b)
  }

  predicate AllValid(k: int, ss: seq<Sighting>) {
    forall j :: 0 <= j < |ss| ==> Valid(k, ss[j])
  }

  /** The bytes the scanner receives for a sighting. */
  function Capture(frames: int -> Bytes, s: Sighting): Bytes {
    match s
    case Frame(i) => frames(i)
    case Noise(b) => b
  }

  /** The bytes of each sighting, in order. */
  function Captures(frames: int -> Bytes, ss: seq<Sighting>): (r: seq<Bytes>)
    ensures |r| == |ss|
    ensures forall j :: 0 <= j < |ss| ==> r[j] == Capture(frames, ss[j])
  {
    seq(|ss|, j requires 0 <= j < |ss| => Capture(frames, ss[j]))
  }

  /** The chunk indices among the sightings. */
  function Seen(ss: seq<Sighting>): set<int> {
    set j | 0 <= j < |ss| && ss[j].Frame? :: ss[j].index
  }

  /** The indices `0 .. k-1`. */
  function Range(k: int): (r: set<int>)
    ensures forall i :: i in r <==> 0 <= i < k
    ensures k >= 0 ==> |r| == k
    decreases k
  {
    if k <= 0 then {} else Range(k - 1) + {k - 1}
  }

  /** The store holding the payload of every index in `s`. */
  function Store(c: DataChunker, data: Bytes, s: set<int>): map<int, Bytes> {
    map i | i in s :: ChunkData(c, data, i)
  }

  /** The scanner state after the indices in `s` have been scanned. */
  function After(c: DataChunker, data: Bytes, k: int, s: set<int>): Scanner {
    Scanner(Store(c, data, s), if s == {} then None else Some(k))
  }

  lemma AddPresent(s: set<int>, i: int)
    requires i in s
    ensures s + {i} == s
  {
  }

  /** A subset is no larger than its superset, and equally large only when equal. */
  lemma SubsetSize(a: set<int>, b: set<int>)
    requires a <= b
    ensures |a| <= |b|
    ensures |a| == |b| ==> a == b
  {
    assert b == a + (b - a);
    if |a| == |b| {
      assert |b - a| == 0;
      assert b - a == {};
    }
  }

  lemma StoreSize(c: DataChunker, data: Bytes, s: set<int>)
    ensures |Store(c, data, s)| == |s|
  {
    assert Store(c, data, s).Keys == s;
  }

  /** A store holding indices `0 .. k-1` reassembles into the payload. */
  lemma StoreReassembles(c: DataChunker, data: Bytes, k: int)
    requires Splits(c, data, k)
    ensures Reassemble(Store(c, data, Range(k)), k) == Success(data)
  {
    var store := Store(c, data, Range(k));
    assert forall i :: 0 <= i < k ==> i in store;
    assert Ordered(store, k) == Slices(c, data, k);
    ConcatSlices(c, data);
  }

  /** A scan of an index the scanner already holds changes nothing. */
  lemma ScanRepeat(c: DataChunker, data: Bytes, k: int, s: set<int>, b: Bytes, i: int)
    requires Carries(b, k, i, ChunkData(c, data, i)) && i in s
    ensures ProcessQRCode(After(c, data, k, s), b) == Step(After(c, data, k, s), None)
  {
    assert !Accepts(After(c, data, k, s), b);
  }

  /** A scan the scanner rejects changes nothing. */
  lemma ScanNoise(c: DataChunker, data: Bytes, k: int, s: set<int>, b: Bytes)
    requires Rejected(b)
    ensures ProcessQRCode(After(c, data, k, s), b) == Step(After(c, data, k, s), None)
  {
    assert !Accepts(After(c, data, k, s), b);
  }

  /** Storing the payload of a new index gives the store for the larger set; it is full exactly when the set is `0 .. k-1`. */
  lemma StoreInsert(c: DataChunker, data: Bytes, k: int, s: set<int>, i: int)
    requires 0 <= i < k && s <= Range(k) && i !in s
    ensures Store(c, data, s)[i := ChunkData(c, data, i)] == Store(c, data, s + {i})
    ensures |Store(c, data, s + {i})| == k <==> s + {i} == Range(k)
    ensures s != Range(k)
  {
    var f := j => ChunkData(c, data, j);
    assert Store(c, data, s) == map j | j in s :: f(j);
    assert Store(c, data, s + {i}) == map j | j in s + {i} :: f(j);
    MapInsert(s, i, f);
    StoreSize(c, data, s + {i});
    SubsetSize(s + {i}, Range(k));
    assert i in Range(k);
  }

  /** Adding key `i` to a map built from `f` is building it over the larger key set. */
  lemma MapInsert(s: set<int>, i: int, f: int -> Bytes)
    ensures (map j | j in s :: f(j))[i := f(i)] == (map j | j in s + {i} :: f(j))
  {
  }

  /** A scan of a new index stores its payload, and completes the payload when it was the last one missing. */
  lemma ScanNew(c: DataChunker, data: Bytes, k: int, s: set<int>, b: Bytes, i: int)
    requires Splits(c, data, k)
    requires Carries(b, k, i, ChunkData(c, data, i))
    requires s <= Range(k) && 0 <= i < k && i !in s
    ensures ProcessQRCode(After(c, data, k, s), b).next == After(c, data, k, s + {i})
    ensures ProcessQRCode(After(c, data, k, s), b).assembled
      == if s + {i} == Range(k) then Some(Success(data)) else None
  {
    var st := After(c, data, k, s);
    assert Accepts(st, b);
    StoreInsert(c, data, k, s, i);
    if s + {i} == Range(k) {
      StoreReassembles(c, data, k);
    }
  }

  /** One scan moves the scanner from the state for `s` to the state for `s` plus the scanned index. */
  lemma ScanStep(c: DataChunker, data: Bytes, k: int, frames: int -> Bytes, s: set<int>, s': set<int>, sight: Sighting, b: Bytes)
    requires Splits(c, data, k) && Delivers(c, data, k, frames)
    requires Valid(k, sight) && s <= Range(k) && b == Capture(frames, sight)
    requires s' == if sight.Frame? then s + {sight.index} else s
    ensures s <= s' <= Range(k)
    ensures ProcessQRCode(After(c, data, k, s), b)
      == Step(After(c, data, k, s'), if s' == Range(k) && s != Range(k) then Some(Success(data)) else None)
  {
    match sight
    case Noise(_) =>
      assert s' == s;
      ScanNoise(c, data, k, s, b);
    case Frame(i) =>
      assert b == frames(i);
      if i in s {
        AddPresent(s, i);
        assert s' == s;
        ScanRepeat(c, data, k, s, b, i);
      } else {
        ScanNew(c, data, k, s, b, i);
        StoreInsert(c, data, k, s, i);
        var r := ProcessQRCode(After(c, data, k, s), b);
        assert r == Step(r.next, r.assembled);
      }
  }

  lemma {:induction false} SeenStep(ss: seq<Sighting>)
    requires |ss| > 0
    ensures var last := ss[|ss| - 1];
      Seen(ss) == Seen(ss[..|ss| - 1]) + (if last.Frame? then {last.index} else {})
  {
  }

  /** The outputs gain the payload exactly at the scan that completes the index set. */
  lemma OutputsStep(before: seq<Result<Bytes, int>>, assembled: Option<Result<Bytes, int>>,
                    s: set<int>, s': set<int>, full: set<int>, data: Bytes)
    requires s <= s' <= full
    requires before == if s == full then [Success(data)] else []
    requires assembled == if s' == full && s != full then Some(Success(data)) else None
    ensures before + (if assembled.Some? then [assembled.value] else [])
      == if s' == full then [Success(data)] else []
  {
    if s == full {
      assert s' == full;
    }
  }

  /** One more scan that takes the scanner from the state for `seen` to the state for `seen'`. */
  lemma RunExtend(c: DataChunker, data: Bytes, k: int, scans: seq<Bytes>, seen: set<int>, seen': set<int>)
    requires |scans| > 0 && seen <= seen' <= Range(k)
    requires Run(EMPTY, scans[..|scans| - 1]).scanner == After(c, data, k, seen)
    requires Run(EMPTY, scans[..|scans| - 1]).outputs == if seen == Range(k) then [Success(data)] else []
    requires ProcessQRCode(After(c, data, k, seen), scans[|scans| - 1])
      == Step(After(c, data, k, seen'), if seen' == Range(k) && seen != Range(k) then Some(Success(data)) else None)
    ensures Run(EMPTY, scans).scanner == After(c, data, k, seen')
    ensures Run(EMPTY, scans).outputs == if seen' == Range(k) then [Success(data)] else []
  {
    var before := Run(EMPTY, scans[..|scans| - 1]);
    var step := ProcessQRCode(before.scanner, scans[|scans| - 1]);
    assert Run(EMPTY, scans) == Session(step.next, before.outputs + (if step.assembled.Some? then [step.assembled.value] else []));
    OutputsStep(before.outputs, step.assembled, seen, seen', Range(k), data);
  }

  /**
   * After any sequence of valid sightings the scanner holds exactly the
   * payloads of the indices seen so far, and it has produced the payload
   * once if every index has been seen and nothing otherwise.
   */
  lemma {:induction false} RunInvariant(c: DataChunker, data: Bytes, k: int, frames: int -> Bytes, ss: seq<Sighting>)
    requires Splits(c, data, k) && k > 0 && Delivers(c, data, k, frames) && AllValid(k, ss)
    ensures Seen(ss) <= Range(k)
    ensures Run(EMPTY, Captures(frames, ss)).scanner == After(c, data, k, Seen(ss))
    ensures Run(EMPTY, Captures(frames, ss)).outputs
      == if Seen(ss) == Range(k) then [Success(data)] else []
    decreases |ss|
  {
    if |ss| == 0 {
      assert Seen(ss) == {};
      assert Store(c, data, {}) == map[];
      assert 0 in Range(k);
    } else {
      var prev := ss[..|ss| - 1];
      var scans := Captures(frames, ss);
      assert AllValid(k, prev);
      assert scans[..|ss| - 1] == Captures(frames, prev);
      RunInvariant(c, data, k, frames, prev);
      SeenStep(ss);
      ScanStep(c, data, k, frames, Seen(prev), Seen(ss), ss[|ss| - 1], scans[|ss| - 1]);
      RunExtend(c, data, k, scans, Seen(prev), Seen(ss));
    }
  }

  /** Every index `0 .. k-1` is among the sightings. */
  predicate AllSeen(k: int, ss: seq<Sighting>) {
    forall i :: 0 <= i < k ==> exists j :: 0 <= j < |ss| && ss[j] == Frame(i)
  }

  lemma AllSeenRange(k: int, ss: seq<Sighting>)
    requires Seen(ss) <= Range(k)
    ensures AllSeen(k, ss) <==> Seen(ss) == Range(k)
  {
    if AllSeen(k, ss) {
      forall i | 0 <= i < k
        ensures i in Seen(ss)
      {
        var j :| 0 <= j < |ss| && ss[j] == Frame(i);
        assert ss[j].index == i;
      }
    }
    if Seen(ss) == Range(k) {
      forall i | 0 <= i < k
        ensures exists j :: 0 <= j < |ss| && ss[j] == Frame(i)
      {
        assert i in Seen(ss);
        var j :| 0 <= j < |ss| && ss[j].Frame? && ss[j].index == i;
        assert ss[j] == Frame(i);
      }
    }
  }

  /**
   * The end-to-end property: scanning the chunks of a payload split into
   * fewer than 2^31 chunks in any order, with repeats and with rejected scans
   * mixed in, yields the payload exactly when every index has been scanned,
   * and yields it once.
   */
  lemma EndToEnd(c: DataChunker, data: Bytes, k: int, ss: seq<Sighting>)
    requires Encodes(c, data, k) && 0 < k < TWO_31 && AllValid(k, ss)
    ensures AllSeen(k, ss) ==> Run(EMPTY, Captures(Frames(c, data, k), ss)).outputs == [Success(data)]
    ensures !AllSeen(k, ss) ==> Run(EMPTY, Captures(Frames(c, data, k), ss)).outputs == []
  {
    FramesDeliver(c, data, k);
    RunInvariant(c, data, k, Frames(c, data, k), ss);
    AllSeenRange(k, ss);
  }

  /** The default chunker creates every chunk of any payload whose chunk count fits in 32 bits. */
  lemma DefaultEncodes(data: Bytes)
    requires IsU32(CalculateChunks(Default(), |data|).value)
    ensures Encodes(Default(), data, CalculateChunks(Default(), |data|).value)
  {
    var k := CalculateChunks(Default(), |data|).value;
    forall i | 0 <= i < k
      ensures CreateChunk(Default(), data, i, k).Success?
    {
      NeverTooLarge(Default(), data, i, k);
    }
  }
}

=== FILE: wire.dfy ===
/**
 * Byte strings and the 32-bit little-endian fields of the chunk wire format,
 * read the way each end of the protocol reads them: as a Python `int` on the
 * encoder side and as a JavaScript number produced by 32-bit bitwise
 * operators on the decoder side.
 */
module Wire {

  /** A byte as both ends hold it: a Python `bytes` item, a `Uint8Array` element. */
  type Byte = x: int | 0 <= x < 0x100

  type Bytes = seq<Byte>

  const TWO_31: int := 0x8000_0000
  const TWO_32: int := 0x1_0000_0000

  /** The range `struct.pack('<I', x)` accepts; outside it Python raises `struct.error`. */
  predicate IsU32(x: int) {
    0 <= x < TWO_32
  }

  /** Base-256 number with least significant digit first. */
  function FromDigits(d0: int, d1: int, d2: int, d3: int): int {
    d0 + 0x100 * (d1 + 0x100 * (d2 + 0x100 * d3))
  }

  /** Unsigned value of the four bytes at `b[off..off+4]`, least significant first. */
  function U32Of(b: Bytes, off: nat): (r: int)
    requires off + 4 <= |b|
    ensures 0 <= r < TWO_32
  {
    FromDigits(b[off], b[off + 1], b[off + 2], b[off + 3])
  }

  /**
   * The number `b[off] | (b[off+1] << 8) | (b[off+2] << 16) | (b[off+3] << 24)`
   * evaluates to in JavaScript: the bitwise operators yield a signed 32-bit
   * integer, so a top byte of 0x80 or more gives a negative number.
   */
  function Int32Of(b: Bytes, off: nat): (r: int)
    requires off + 4 <= |b|
    ensures -TWO_31 <= r < TWO_31
    ensures r == U32Of(b, off) || r == U32Of(b, off) - TWO_32
  {
    U32Of(b, off) - (if b[off + 3] >= 0x80 then TWO_32 else 0)
  }

  /** The JavaScript number a 32-bit bitwise operator gives for the unsigned 32-bit value `x`. */
  function Signed(x: int): (r: int)
    requires IsU32(x)
    ensures -TWO_31 <= r < TWO_31
    ensures r == x || r == x - TWO_32
  {
    if x < TWO_31 then x else x - TWO_32
  }

  /** `struct.pack('<I', x)`: the four base-256 digits of `x`, least significant first. */
  function PackU32(x: int): (r: Bytes)
    requires IsU32(x)
    ensures |r| == 4
    ensures FromDigits(r[0], r[1], r[2], r[3]) == x
  {
    var r1 := x / 0x100;
    var r2 := r1 / 0x100;
    [x % 0x100, r1 % 0x100, r2 % 0x100, r2 / 0x100]
  }

  lemma DigitsDecode(d0: int, d1: int, d2: int, d3: int)
    requires 0 <= d0 < 0x100 && 0 <= d1 < 0x100 && 0 <= d2 < 0x100 && 0 <= d3 < 0x100
    ensures var x := FromDigits(d0, d1, d2, d3);
      && x % 0x100 == d0
      && (x / 0x100) % 0x100 == d1
      && (x / 0x100 / 0x100) % 0x100 == d2
      && x / 0x100 / 0x100 / 0x100 == d3
  {
    var r2 := d2 + 0x100 * d3;
    var r1 := d1 + 0x100 * r2;
    assert r2 / 0x100 == d3 && r2 % 0x100 == d2;
    assert r1 / 0x100 == r2 && r1 % 0x100 == d1;
  }

  /** Unpacking what `struct.pack('<I', x)` wrote gives `x` back. */
  lemma U32OfPackU32(x: int, prefix: Bytes, suffix: Bytes)
    requires IsU32(x)
    ensures U32Of(prefix + PackU32(x) + suffix, |prefix|) == x
  {
    var b := prefix + PackU32(x) + suffix;
    assert b[|prefix|..|prefix| + 4] == PackU32(x);
  }

  /** Packing the value of four bytes gives those four bytes back. */
  lemma PackU32OfU32Of(b: Bytes, off: nat)
    requires off + 4 <= |b|
    ensures PackU32(U32Of(b, off)) == b[off..off + 4]
  {
    DigitsDecode(b[off], b[off + 1], b[off + 2], b[off + 3]);
  }

  /**
   * The decoder reads back what the encoder packed: exactly for values below
   * 2^31, and as the value minus 2^32 above (the sign bit is set).
   */
  lemma Int32OfPackU32(x: int, prefix: Bytes, suffix: Bytes)
    requires IsU32(x)
    ensures x < TWO_31 ==> Int32Of(prefix + PackU32(x) + suffix, |prefix|) == x
    ensures x >= TWO_31 ==> Int32Of(prefix + PackU32(x) + suffix, |prefix|) == x - TWO_32
  {
    U32OfPackU32(x, prefix, suffix);
    var b := prefix + PackU32(x) + suffix;
    assert b[|prefix| + 3] == PackU32(x)[3];
  }

  /** A field holding the packed bytes of `x` reads as `x` taken signed. */
  lemma FieldValue(b: Bytes, off: nat, x: int)
    requires off + 4 <= |b| && IsU32(x)
    requires b[off..off + 4] == PackU32(x)
    ensures Int32Of(b, off) == Signed(x)
  {
    Int32OfPackU32(x, [], []);
    assert [] + PackU32(x) + [] == PackU32(x);
    assert PackU32(x)[0..4] == PackU32(x);
    SameField(b, off, PackU32(x), 0);
  }

  /** A field reads as `x` taken signed exactly when it holds the packed bytes of `x`. */
  lemma SignedField(b: Bytes, off: nat, x: int)
    requires off + 4 <= |b| && IsU32(x)
    ensures Int32Of(b, off) == Signed(x) <==> b[off..off + 4] == PackU32(x)
  {
    FieldValue(PackU32(x), 0, x);
    Int32OfInjective(PackU32(x), 0, b, off);
    assert PackU32(x)[0..4] == PackU32(x);
  }

  /** Two four-byte fields read as equal JavaScript numbers are equal byte for byte. */
  lemma Int32OfInjective(a: Bytes, i: nat, b: Bytes, j: nat)
    requires i + 4 <= |a| && j + 4 <= |b|
    ensures Int32Of(a, i) == Int32Of(b, j) <==> a[i..i + 4] == b[j..j + 4]
  {
    if Int32Of(a, i) == Int32Of(b, j) {
      assert U32Of(a, i) == U32Of(b, j);
      PackU32OfU32Of(a, i);
      PackU32OfU32Of(b, j);
    }
    if a[i..i + 4] == b[j..j + 4] {
      SameField(a, i, b, j);
    }
  }

  lemma SameField(a: Bytes, i: nat, b: Bytes, j: nat)
    requires i + 4 <= |a| && j + 4 <= |b|
    requires a[i..i + 4] == b[j..j + 4]
    ensures Int32Of(a, i) == Int32Of(b, j)
  {
    assert a[i..i + 4][0] == a[i] && a[i..i + 4][1] == a[i + 1];
    assert a[i..i + 4][2] == a[i + 2] && a[i..i + 4][3] == a[i + 3];
    assert b[j..j + 4][0] == b[j] && b[j..j + 4][1] == b[j + 1];
    assert b[j..j + 4][2] == b[j + 2] && b[j..j + 4][3] == b[j + 3];
  }

  /** The four bytes a JavaScript signed 32-bit number is read from (its two's-complement pattern). */
  function Int32Bytes(x: int): (r: Bytes)
    requires -TWO_31 <= x < TWO_31
    ensures |r| == 4
  {
    PackU32(if x < 0 then x + TWO_32 else x)
  }

  /** Reading a field as a signed JavaScript number loses nothing: its bytes come back. */
  lemma Int32BytesOf(b: Bytes, off: nat)
    requires off + 4 <= |b|
    ensures Int32Bytes(Int32Of(b, off)) == b[off..off + 4]
  {
    PackU32OfU32Of(b, off);
  }

  /** Concatenation of a sequence of byte strings, in order. */
  function Flatten(parts: seq<Bytes>): Bytes
    decreases |parts|
  {
    if |parts| == 0 then [] else Flatten(parts[..|parts| - 1]) + parts[|parts| - 1]
  }

  /** Total length of a sequence of byte strings. */
  function SumLengths(parts: seq<Bytes>): nat
    decreases |parts|
  {
    if |parts| == 0 then 0 else SumLengths(parts[..|parts| - 1]) + |parts[|parts| - 1]|
  }

  lemma {:induction false} FlattenLength(parts: seq<Bytes>)
    ensures |Flatten(parts)| == SumLengths(parts)
    decreases |parts|
  {
    if |parts| > 0 {
      FlattenLength(parts[..|parts| - 1]);
    }
  }

  lemma {:induction false} FlattenCons(head: Bytes, tail: seq<Bytes>)
    ensures Flatten([head] + tail) == head + Flatten(tail)
    decreases |tail|
  {
    if |tail| == 0 {
      assert [head] + tail == [head];
      assert Flatten([head]) == Flatten([]) + head;
    } else {
      var parts, init := [head] + tail, tail[..|tail| - 1];
      assert parts[..|parts| - 1] == [head] + init;
      assert parts[|parts| - 1] == tail[|tail| - 1];
      FlattenCons(head, init);
      assert Flatten(parts) == (head + Flatten(init)) + tail[|tail| - 1];
    }
  }

  lemma {:induction false} FlattenAppend(a: seq<Bytes>, b: seq<Bytes>)
    ensures Flatten(a + b) == Flatten(a) + Flatten(b)
    decreases |b|
  {
    if |b| == 0 {
      assert a + b == a;
    } else {
      var init, last := b[..|b| - 1], b[|b| - 1];
      assert (a + b)[..|a + b| - 1] == a + init;
      assert (a + b)[|a + b| - 1] == last;
      FlattenAppend(a, init);
      calc {
        Flatten(a + b);
        Flatten(a + init) + last;
        (Flatten(a) + Flatten(init)) + last;
        Flatten(a) + (Flatten(init) + last);
      }
    }
  }

  /** One more part adds its length to the running total and its bytes to the running concatenation. */
  lemma PrefixStep(parts: seq<Bytes>, j: nat)
    requires j < |parts|
    ensures SumLengths(parts[..j + 1]) == SumLengths(parts[..j]) + |parts[j]|
    ensures Flatten(parts[..j + 1]) == Flatten(parts[..j]) + parts[j]
  {
    assert parts[..j + 1][..j] == parts[..j];
  }

  /** Overwriting `buf[at .. at+|part|]` with `part` keeps the length and extends the written prefix by `part`. */
  lemma Splice(buf: Bytes, at: nat, part: Bytes)
    requires at + |part| <= |buf|
    ensures var out := buf[..at] + part + buf[at + |part|..];
      && |out| == |buf|
      && out[..at + |part|] == buf[..at] + part
  {
    var out := buf[..at] + part + buf[at + |part|..];
    assert out[..at + |part|] == buf[..at] + part;
  }

  /** The parts before `i` are no longer together than the parts before `j`, for `i <= j`. */
  lemma {:induction false} SumLengthsPrefix(parts: seq<Bytes>, i: nat, j: nat)
    requires i <= j <= |parts|
    ensures SumLengths(parts[..i]) <= SumLengths(parts[..j])
    decreases j - i
  {
    if i < j {
      SumLengthsPrefix(parts, i, j - 1);
      assert parts[..j][..j - 1] == parts[..j - 1];
    }
  }

  /** Part `i` sits in the concatenation right after the parts before it. */
  lemma FlattenPart(parts: seq<Bytes>, i: nat)
    requires i < |parts|
    ensures SumLengths(parts[..i]) + |parts[i]| <= |Flatten(parts)|
    ensures Flatten(parts)[SumLengths(parts[..i])..SumLengths(parts[..i]) + |parts[i]|] == parts[i]
  {
    var before, rest := parts[..i], parts[i + 1..];
    assert parts == before + ([parts[i]] + rest);
    FlattenAppend(before, [parts[i]] + rest);
    FlattenCons(parts[i], rest);
    FlattenLength(before);
    var at := |Flatten(before)|;
    assert Flatten(parts) == Flatten(before) + (parts[i] + Flatten(rest));
    assert Flatten(parts)[at..at + |parts[i]|] == parts[i];
  }
}

=== FILE: wrappers.dfy ===
/** Failure-carrying result types shared by the encoder and decoder models. */
module Wrappers {

  /** A value that may be absent (the scanner's `null`, a rendering that failed). */
  datatype Option<+T> = None | Some(value: T)

  /** A computed value or the error that aborted the computation (a raised exception). */
  datatype Result<+R, +E> = Success(value: R) | Failure(error: E)

  /** Completion of an operation that yields no value, or the error that aborted it. */
  datatype Outcome<+E> = Pass | Fail(error: E)
}
